=== FILE: README.md ===
# Support-coordination analytics engine, in Dafny

This project models the analytics engine of a support-coordination portfolio
dashboard, and proves properties of the model. The engine takes a table of
participant records. Each record has an id, a total funding, a daily
expenditure and a number of service hours. From that table it derives four
results:

- **Depletion estimates** (`Depletion`). Each participant's funding runway in
  days, capped at a year.
- **Risk assessments** (`Risk`). A composite score per participant from
  projected one-year remaining funding and the service-hours shortfall. Both
  are measured against caller-supplied thresholds. The score is then
  classified Low, Medium or High.
- **Coordinator allocation** (`Allocation`). Expenditure and service hours are
  standardized and averaged into a complexity score. Participants are split
  into a High and a Low bucket, and coordinators are recommended per bucket.
- **Expenditure forecast** (`Forecast`). Total daily spend projected with a
  linear 0–20% growth trend plus a per-day noise term.

It also models two pieces of the dashboard around the engine (`Dashboard`).
One is the required-columns check on an uploaded table. The other is the
report summary: record count, total funding, mean service hours and the
number of High-risk participants.

Supporting modules: `Participants` (the record and its columns), `Stats`
(sum, mean, population variance, deviations, and the real-arithmetic facts
the proofs need) and `Wrappers` (`Option`, `Result`).

Modelling choices:

- All quantities are exact `real`s. Floating-point rounding, NaN and infinity
  are not modelled.
- Every division in the risk formula is unguarded in the source. So
  `RiskScore`, `AssessServiceRisks` and `GenerateReport` require non-zero
  funding on every record and non-zero thresholds. The sliders do allow a zero
  threshold (app.py:51-52). What the source then does depends on the row
  types. Rows of mixed type hold Python floats, and the division raises an
  error. All-numeric rows hold numpy scalars, and the division gives an
  infinite or NaN score with only a warning. A score of +∞ is classified
  High; −∞ and NaN are classified Low, because both comparisons at
  utils.py:30 are false. A zero hours threshold with positive service hours
  gives −∞, so that slider setting makes most participants Low. The page
  carries on. That path is outside the model (see "Left out").
- StandardScaler divides by the population standard deviation, and by 1 for a
  column of variance zero. Dafny reals have no square root, so the two scales
  are parameters. The recommender accepts any positive scales
  (`Allocation.Fitted`). Its bucket and count properties hold for every such
  scale. `Allocation.IsScale` pins down the scale StandardScaler itself fits:
  1 when the variance is zero, otherwise the positive number whose square is
  the variance. The unit-variance and tied-pair lemmas assume that scale.
  The recommender requires a non-empty table, because StandardScaler rejects
  zero samples. A one-record table is the zero-variance case.
- The source adds the complexity column to the caller's table in place
  (utils.py:44). The model returns a new table (`ScoreComplexity`) instead.
- The forecast noise is a parameter of length `forecastDays`, in place of
  `np.random.normal`. Calendar dates become day offsets 0, 1, ….
- Days until depletion is negative for negative funding, as the code
  computes. A single record standardizes without error: both columns have
  variance zero, so its score is 0. As written, the table step then fails
  for it, as for every table that does not have exactly two records (see
  Findings). The corrected recommender accepts it.

## Model

| member | source | states |
|---|---|---|
| Depletion.DaysUntilDepletion | sb1-txaumw/utils.py:11-14 | The runway never exceeds 365. It is exactly 365 when expenditure is zero or negative. With positive expenditure it is 365 exactly when funding covers a year, and below the cap runway × expenditure = funding. It is non-negative for non-negative funding. |
| Depletion.CalculateFundingDepletion | sb1-txaumw/utils.py:7-16 | One estimate per record, in input order, with the same participant id. Each estimate is that record's runway, is ≤ 365, and is 365 when expenditure ≤ 0. |
| Depletion.RunwayGrowsWithFunding | sb1-txaumw/utils.py:11-14 | At equal daily expenditure, more funding never gives a shorter runway. |
| Depletion.HundredDayRunway | sb1-txaumw/utils.py:11-14 | Funding 1000 spent at 10 a day gives a runway of 100 days. |
| Risk.ClassifyRisk | sb1-txaumw/utils.py:30 | Exactly one level: High iff score > 0.7, Medium iff 0.3 < score ≤ 0.7, Low iff score ≤ 0.3. So 0.7 is Medium and 0.3 is Low. |
| Risk.ClassifyMonotone | sb1-txaumw/utils.py:30 | A higher score never gets a lower level. |
| Risk.FundingRemaining | sb1-txaumw/utils.py:22 | With positive daily expenditure, the one-year remainder is non-negative exactly when the depletion runway reaches the 365-day cap. The remainder is below total funding exactly when expenditure is positive. |
| Risk.FundingRiskPct | sb1-txaumw/utils.py:22-23 | The percentage times total funding equals 100 × (funding − 365 × daily expenditure). |
| Risk.RiskScore | sb1-txaumw/utils.py:25-28 | With both denominators cleared: 2 × score × fundingThreshold × hoursThreshold = (fundingThreshold − fundingPct) × hoursThreshold + (hoursThreshold − hours) × fundingThreshold. This is the mean of the two threshold shortfalls. |
| Risk.AssessServiceRisks | sb1-txaumw/utils.py:18-37 | One assessment per record, in order, with the same id. Its score is the composite risk score, and its level is the classification of that score. |
| Risk.RiskScoreAsAttainment | sb1-txaumw/utils.py:25-28 | The score equals 1 − (fundingPct/fundingThreshold + hours/hoursThreshold)/2, i.e. one minus the mean attainment of the two thresholds. |
| Risk.OnThresholdsIsLow | sb1-txaumw/utils.py:25-30 | A participant exactly on both thresholds scores 0 and is Low. |
| Risk.RiskRisesWithExpenditure | sb1-txaumw/utils.py:22-28 | With positive funding and funding threshold, higher daily expenditure never lowers the score. |
| Risk.RiskFallsWithHours | sb1-txaumw/utils.py:25-28 | With a positive hours threshold, more service hours never raise the score. |
| Risk.OverspendingParticipantIsHigh | sb1-txaumw/utils.py:22-30 | Funding 1000, expenditure 10 and 5 hours, with thresholds 20 and 15: the funding percentage is −265, the score is 179/24, and the level is High. |
| Allocation.IsScale | sb1-txaumw/utils.py:45-46 | The scale StandardScaler fits to a column is 1 when the variance is zero, and otherwise positive with square equal to the population variance. Such a scale is always positive. |
| Allocation.ScalerFitted | sb1-txaumw/utils.py:45-46 | The scales StandardScaler fits to the two columns always meet the recommender's requirement of positive scales. |
| Allocation.Standardize | sb1-txaumw/utils.py:45-46 | One value per entry; each standardized value times the scale equals the entry minus the column mean. |
| Allocation.StandardizeSumsToZero | sb1-txaumw/utils.py:45-46 | For any positive scale the standardized column sums to zero. |
| Allocation.StandardizeZeroVariance | sb1-txaumw/utils.py:45-46 | A column of variance zero standardizes to all zeros, whatever the scale. |
| Allocation.StandardizeUnitVariance | sb1-txaumw/utils.py:45-46 | A column of positive variance, divided by the scale StandardScaler fits, standardizes to mean 0 and population variance 1. |
| Allocation.ComplexityScores | sb1-txaumw/utils.py:44-47 | One score per record. Twice the score is the sum of the record's two standardized values. |
| Allocation.ComplexityScoresSumToZero | sb1-txaumw/utils.py:44-47 | The complexity scores of a table sum to zero. |
| Allocation.ScoreComplexity | sb1-txaumw/utils.py:44-47 | The table with the `complexity_score` column attached. Same length and order, each row keeps its record, and row i carries the i-th complexity score. |
| Allocation.HighBucket | sb1-txaumw/utils.py:50 | A row is in the High bucket iff it is in the table and its score is > 0.5. |
| Allocation.LowBucket | sb1-txaumw/utils.py:51 | A row is in the Low bucket iff it is in the table and its score is ≤ 0.5. |
| Allocation.BucketsPartition | sb1-txaumw/utils.py:50-51 | The two buckets together are a permutation of the table (multiset union), so their sizes add to the record count. |
| Allocation.LowBucketNonEmpty | sb1-txaumw/utils.py:44-51 | The scores sum to zero, so some record scores ≤ 0 and the Low bucket is never empty. |
| Allocation.ZeroVarianceAllLow | sb1-txaumw/utils.py:44-51 | If both columns have variance zero, every score is 0, the High bucket is empty, and every record is Low. |
| Allocation.Coordinators | sb1-txaumw/utils.py:57-60 | At least 1. It is exactly 1 below twice the per-coordinator ratio. From one ratio's worth of participants upward, c × ratio ≤ count < (c+1) × ratio, i.e. floor division. |
| Allocation.RecommendCoordinatorAllocation | sb1-txaumw/utils.py:39-63 | Two rows, High then Low. Their counts are the bucket sizes and add to the record count. The Low count is ≥ 1. Coordinators are one per 10 (High) or per 15 (Low), minimum 1. |
| Allocation.TiedPairAllLow | sb1-txaumw/utils.py:44-60 | For two records with equal expenditure and equal hours, StandardScaler fits scale 1 to both columns, and the table is [High 0 → 1, Low 2 → 1]. |
| Allocation.AllocationTableAsWritten | sb1-txaumw/utils.py:54-61 | As the source builds it, the table exists iff the two bucket sizes add to 2. Its first row is labelled Low whenever the High bucket is empty. |
| Allocation.AsWrittenFailsUnlessTwoParticipants | sb1-txaumw/utils.py:54-61 | As written, the table is built for a non-empty input with positive scales iff it has exactly two records. |
| Allocation.AsWrittenMislabelsTiedPair | sb1-txaumw/utils.py:54-61 | For two tied records the as-written first row is labelled Low while holding the High count 0. The corrected table labels it High. |
| Forecast.Trend | sb1-txaumw/utils.py:78 | Every trend value is in [0, 0.2]. The first is 0, and with two or more days the last is 0.2. |
| Forecast.TrendEvenlySpaced | sb1-txaumw/utils.py:78 | Neighbouring trend values differ by 0.2/(n−1), as an evenly spaced ramp does. |
| Forecast.TrendMonotone | sb1-txaumw/utils.py:78 | The trend never falls. |
| Forecast.GenerateForecasts | sb1-txaumw/utils.py:65-86 | One point per forecast day, with consecutive day offsets. Each prediction is total daily expenditure × (1 + trend + that day's noise). |
| Forecast.ForecastEndpoints | sb1-txaumw/utils.py:75-81 | The first prediction is total × (1 + noise₀). With two or more days, the last is total × (1.2 + noise). |
| Forecast.NoiselessForecastNonDecreasing | sb1-txaumw/utils.py:75-81 | With all-zero noise and a non-negative total, predictions never fall from one day to a later one. |
| Forecast.ForecastWithinNoiseBand | sb1-txaumw/utils.py:79-81 | With noise bounded by b and a non-negative total, each prediction lies within total × (1 + trend ± b). |
| Dashboard.AllPresent | sb1-txaumw/app.py:32 | True iff every required name occurs among the columns. |
| Dashboard.HasRequiredColumns | sb1-txaumw/app.py:31-32 | Accepted iff participant_id, total_funding, daily_expenditure and service_hours are all columns. |
| Dashboard.ExtraColumnsAccepted | sb1-txaumw/app.py:31-32 | Adding or reordering columns never turns an accepted table into a rejected one. |
| Dashboard.CountHighRisk | sb1-txaumw/app.py:132 | The High count is at most the number of assessments. It is 0 iff none is High, and all of them iff all are High. |
| Dashboard.CountHighRiskIsMultiplicity | sb1-txaumw/app.py:132 | The High count is the number of occurrences of High in the level column (a multiset count). |
| Dashboard.CountHighRiskAppend | sb1-txaumw/app.py:132 | The High count of two concatenated assessment lists is the sum of their counts. |
| Dashboard.AboveHigh | sb1-txaumw/utils.py:25-30 | One flag per record, true exactly when that record's risk score exceeds 0.7. |
| Dashboard.CountScoresAboveHighIsMultiplicity | sb1-txaumw/app.py:132 | Counting the records whose risk score exceeds 0.7 gives the number of true entries in their "score above 0.7" flags. |
| Dashboard.HighRiskCountIsScoreCount | sb1-txaumw/app.py:132 | Counting High levels among the assessments equals counting records whose risk score exceeds 0.7. |
| Dashboard.AverageServiceHours | sb1-txaumw/app.py:131 | No value (NaN) iff the table is empty. Otherwise average × record count = total service hours. |
| Dashboard.AverageWithinRange | sb1-txaumw/app.py:131 | The average lies between any lower and upper bound of the service hours. |
| Dashboard.GenerateReport | sb1-txaumw/app.py:127-134 | The participant count is the record count. Total funding is the column sum. The average is present. The High-risk count is the number of scores above 0.7 and is ≤ the participant count. The recommendations are the allocation table. |
| Dashboard.TotalFundingAdditive | sb1-txaumw/app.py:130 | Total funding of two concatenated tables is the sum of their totals. |
| Dashboard.TotalFundingNonnegative | sb1-txaumw/app.py:130 | Non-negative funding on every record gives a non-negative total. |

## Findings

| source | as written | input that shows it | evidently intended | confidence | as-written member | corrected member |
|---|---|---|---|---|---|---|
| sb1-txaumw/utils.py:55 | `complexity_level` holds one label per participant (`['High'] * high + ['Low'] * low`), while `participant_count` and `recommended_coordinators` hold two entries. A table with unequal columns is refused, so any input that is not exactly two participants fails. With two tied participants (both Low) the first row reads "Low" with count 0. | three participants (any values); or two with equal expenditure and equal service hours | a two-row table labelled `['High', 'Low']` | high, not executed | Allocation.AllocationTableAsWritten | Allocation.RecommendCoordinatorAllocation |

The as-written behaviour is exhibited by
`Allocation.AsWrittenFailsUnlessTwoParticipants` and
`Allocation.AsWrittenMislabelsTiedPair`. The report (`Dashboard.GenerateReport`)
uses the corrected table.

## Left out

- File upload and parsing (`read_csv` / `read_excel`), its error messages, and the exception handler in `load_data`. These are I/O; only the column predicate is modelled.
- The Streamlit page, sidebar sliders, session state, buttons and download. These are UI wiring. The slider values become plain parameters.
- All plotly chart construction, including the OLS trendline. These are declarative library calls.
- The report's date stamp and file name, and the forecast's dates. These depend on the wall clock; day offsets stand in for dates.
- The normal distribution of the forecast noise. The noise is a caller-supplied sequence.
- The square root inside StandardScaler. The scale is a positive parameter, and `IsScale` says which value StandardScaler fits. scikit-learn's treatment of near-zero (not exactly zero) variances as zero is not modelled, because reals are exact.
- The serialized form of the recommendations in the report (`to_dict`). The report holds the recommendation rows themselves.
- Risk.AssessServiceRisks: requires non-zero funding on every record and non-zero thresholds. So it does not model the numpy path in which a zero divisor gives an infinite or NaN score (classified High or Low) instead of an error. Reals have no infinity or NaN.
- Dashboard.GenerateReport: the same non-zero requirements, for the same reason.
- The `src/components/dashboard.py` variant of the page. Its analysis module is not part of this model.

=== FILE: allocation.dfy ===
/** The allocation recommender: standardize the expenditure and service-hours
    columns, average them into a complexity score per participant, split the
    participants at a score of 0.5, and recommend coordinators per bucket. */
module Allocation {
  import opened Participants
  import opened Stats
  import opened Wrappers

  /** The scale StandardScaler divides a column by: the population standard
      deviation, or 1 for a column of variance zero. The square root is not
      computed here; the scale is supplied and must square to the variance.
      Such a scale is always positive, so it is one the transform accepts. */
  predicate IsScale(xs: seq<real>, s: real)
    requires |xs| > 0
    ensures IsScale(xs, s) ==> s > 0.0
  {
    if Variance(xs) == 0.0 then s == 1.0 else s > 0.0 && s * s == Variance(xs)
  }

  /** StandardScaler's transform of one column: every entry minus the mean,
      divided by the scale. Any positive scale gives a column of mean zero;
      `IsScale` says which scale StandardScaler itself picks. */
  function Standardize(xs: seq<real>, s: real): (zs: seq<real>)
    requires |xs| > 0 && s > 0.0
    ensures |zs| == |xs|
    ensures forall i :: 0 <= i < |xs| ==> zs[i] * s == xs[i] - Mean(xs)
  {
    Deviations(xs, Mean(xs), s)
  }

  /** The standardized column sums to zero. */
  lemma StandardizeSumsToZero(xs: seq<real>, s: real)
    requires |xs| > 0 && s > 0.0
    ensures Sum(Standardize(xs, s)) == 0.0
  {
    DeviationsFromMeanSumToZero(xs, s);
  }

  lemma DeviationsFromMeanSumToZero(xs: seq<real>, s: real)
    requires |xs| > 0 && s != 0.0
    ensures Sum(Deviations(xs, Mean(xs), s)) == 0.0
  {
    var m := Mean(xs);
    var z := Sum(Deviations(xs, m, s));
    SumDeviations(xs, m, s);
    assert z * s == Sum(xs) - (|xs| as real) * m;
    assert z * s == 0.0;
    ZeroProduct(z, s);
  }

  /** A column of variance zero standardizes to all zeros, whatever the scale. */
  lemma StandardizeZeroVariance(xs: seq<real>, s: real)
    requires |xs| > 0 && s > 0.0
    requires Variance(xs) == 0.0
    ensures forall i :: 0 <= i < |xs| ==> Standardize(xs, s)[i] == 0.0
  {
    ZeroVarianceIsConstant(xs);
  }

  lemma SquareScaled(z: real, s: real, d: real)
    requires z * s == d
    ensures (z * z) * (s * s) == d * d
  {
    assert (z * z) * (s * s) == (z * s) * (z * s);
  }

  /** A column whose sum is zero has mean zero. */
  lemma ZeroSumZeroMean(zs: seq<real>)
    requires |zs| > 0 && Sum(zs) == 0.0
    ensures Mean(zs) == 0.0
  {
    ZeroProduct(Mean(zs), |zs| as real);
  }

  /** `zs` is `xs` shifted by `m` and divided by `s`, stated entry by entry
      from the front. This is the fact `Deviations` promises, recast in the
      shape the rescaling induction below walks: unfolding it yields the head
      and the tail directly, with no quantifier over products for the solver
      to instantiate. */
  predicate ScaledFrom(zs: seq<real>, xs: seq<real>, m: real, s: real)
  {
    |zs| == |xs| && (|xs| > 0 ==> zs[0] * s == xs[0] - m && ScaledFrom(zs[1..], xs[1..], m, s))
  }

  lemma {:induction false} DeviationsScaledFrom(xs: seq<real>, m: real, s: real)
    requires s != 0.0
    ensures ScaledFrom(Deviations(xs, m, s), xs, m, s)
  {
    if |xs| > 0 {
      assert Deviations(xs, m, s)[1..] == Deviations(xs[1..], m, s);
      DeviationsScaledFrom(xs[1..], m, s);
    }
  }

  /** `ys` is `xs` multiplied by `c`, entry by entry from the front. */
  predicate ScaledBy(xs: seq<real>, ys: seq<real>, c: real)
  {
    |xs| == |ys| && (|xs| > 0 ==> xs[0] * c == ys[0] && ScaledBy(xs[1..], ys[1..], c))
  }

  /** Entry-wise scaling carries over to sums. */
  lemma {:induction false} SumScaledBy(xs: seq<real>, ys: seq<real>, c: real)
    requires ScaledBy(xs, ys, c)
    ensures Sum(xs) * c == Sum(ys)
  {
    if |xs| > 0 {
      SumScaledBy(xs[1..], ys[1..], c);
      Combine(Sum(xs), Sum(ys), xs[0], ys[0], Sum(xs[1..]), Sum(ys[1..]), c);
    }
  }

  /** Squaring a standardized column and scaling by the squared scale gives
      the squared deviations of the original column. */
  lemma {:induction false} SquaresRescale(xs: seq<real>, zs: seq<real>, m: real, s: real)
    requires ScaledFrom(zs, xs, m, s)
    ensures ScaledBy(SquaredDeviations(zs, 0.0), SquaredDeviations(xs, m), s * s)
  {
    if |xs| > 0 {
      SquaresRescale(xs[1..], zs[1..], m, s);
      SquareScaled(zs[0] - 0.0, s, xs[0] - m);
      assert SquaredDeviations(zs, 0.0)[1..] == SquaredDeviations(zs[1..], 0.0);
      assert SquaredDeviations(xs, m)[1..] == SquaredDeviations(xs[1..], m);
    }
  }

  /** If each part scales to its counterpart, so does the whole. */
  lemma Combine(whole: real, whole': real, head: real, head': real, rest: real, rest': real, c: real)
    requires whole == head + rest && whole' == head' + rest'
    requires head * c == head' && rest * c == rest'
    ensures whole * c == whole'
  {
  }

  lemma CancelPositive(q: real, n: real, v: real)
    requires n > 0.0 && v > 0.0
    requires q * v == v * n
    ensures q / n == 1.0
  {
    assert (q - n) * v == 0.0;
    ZeroProduct(q - n, v);
  }

  /** A column of positive variance standardizes to unit variance. */
  lemma StandardizeUnitVariance(xs: seq<real>, s: real)
    requires |xs| > 0 && IsScale(xs, s)
    requires Variance(xs) > 0.0
    ensures Mean(Standardize(xs, s)) == 0.0
    ensures Variance(Standardize(xs, s)) == 1.0
  {
    var zs := Standardize(xs, s);
    var n := |xs| as real;
    var v := Variance(xs);
    StandardizeSumsToZero(xs, s);
    ZeroSumZeroMean(zs);
    DeviationsScaledFrom(xs, Mean(xs), s);
    SquaresRescale(xs, zs, Mean(xs), s);
    SumScaledBy(SquaredDeviations(zs, 0.0), SquaredDeviations(xs, Mean(xs)), s * s);
    var q := Sum(SquaredDeviations(zs, 0.0));
    CancelPositive(q, n, v);
    assert Variance(zs) == q / n;
  }

  /** The entry-wise average of two equally long columns. */
  function Midpoints(a: seq<real>, b: seq<real>): (cs: seq<real>)
    requires |a| == |b|
    ensures |cs| == |a|
    ensures forall i :: 0 <= i < |a| ==> cs[i] * 2.0 == a[i] + b[i]
  {
    if |a| == 0 then [] else [(a[0] + b[0]) / 2.0] + Midpoints(a[1..], b[1..])
  }

  lemma {:induction false} SumMidpoints(a: seq<real>, b: seq<real>)
    requires |a| == |b|
    ensures Sum(Midpoints(a, b)) * 2.0 == Sum(a) + Sum(b)
  {
    if |a| > 0 {
      assert Midpoints(a, b)[1..] == Midpoints(a[1..], b[1..]);
      SumMidpoints(a[1..], b[1..]);
    }
  }

  /** What the recommender needs of its input: at least one record (the
      scaler rejects an empty table) and a positive scale for each column. */
  predicate Fitted(rs: seq<Participant>, expenditureScale: real, hoursScale: real)
  {
    |rs| > 0 && expenditureScale > 0.0 && hoursScale > 0.0
  }

  /** The scales StandardScaler fits to the two columns; such scales always
      satisfy `Fitted`. */
  predicate ScalerFitted(rs: seq<Participant>, expenditureScale: real, hoursScale: real)
    requires |rs| > 0
    ensures ScalerFitted(rs, expenditureScale, hoursScale) ==> Fitted(rs, expenditureScale, hoursScale)
  {
    IsScale(Expenditures(rs), expenditureScale) && IsScale(Hours(rs), hoursScale)
  }

  /** The complexity score of every record: the mean of its standardized
      expenditure and standardized service hours. */
  function ComplexityScores(rs: seq<Participant>, expenditureScale: real, hoursScale: real): (cs: seq<real>)
    requires Fitted(rs, expenditureScale, hoursScale)
    ensures |cs| == |rs|
    ensures forall i :: 0 <= i < |rs| ==>
              cs[i] * 2.0 == Standardize(Expenditures(rs), expenditureScale)[i]
                             + Standardize(Hours(rs), hoursScale)[i]
  {
    Midpoints(Standardize(Expenditures(rs), expenditureScale), Standardize(Hours(rs), hoursScale))
  }

  /** Both standardized columns sum to zero, so the complexity scores do too. */
  lemma ComplexityScoresSumToZero(rs: seq<Participant>, expenditureScale: real, hoursScale: real)
    requires Fitted(rs, expenditureScale, hoursScale)
    ensures Sum(ComplexityScores(rs, expenditureScale, hoursScale)) == 0.0
  {
    var e := Standardize(Expenditures(rs), expenditureScale);
    var h := Standardize(Hours(rs), hoursScale);
    StandardizeSumsToZero(Expenditures(rs), expenditureScale);
    StandardizeSumsToZero(Hours(rs), hoursScale);
    SumMidpoints(e, h);
  }

  /** A record paired with its complexity score (the `complexity_score` column). */
  datatype ScoredParticipant = ScoredParticipant(participant: Participant, complexityScore: real)

  /** The input table with the complexity column attached, as a new table. */
  function ScoreComplexity(rs: seq<Participant>, expenditureScale: real, hoursScale: real)
    : (t: seq<ScoredParticipant>)
    requires Fitted(rs, expenditureScale, hoursScale)
    ensures |t| == |rs|
    ensures forall i :: 0 <= i < |rs| ==>
              t[i].participant == rs[i]
              && t[i].complexityScore == ComplexityScores(rs, expenditureScale, hoursScale)[i]
  {
    var cs := ComplexityScores(rs, expenditureScale, hoursScale);
    seq(|rs|, i requires 0 <= i < |rs| => ScoredParticipant(rs[i], cs[i]))
  }

  /** Scores strictly above this are High complexity. */
  const ComplexityCutoff: real := 0.5

  /** The rows scoring above the cut-off, in table order. */
  function HighBucket(t: seq<ScoredParticipant>): (h: seq<ScoredParticipant>)
    ensures |h| <= |t|
    ensures forall x :: x in h <==> x in t && x.complexityScore > ComplexityCutoff
  {
    if |t| == 0 then []
    else if t[0].complexityScore > ComplexityCutoff then [t[0]] + HighBucket(t[1..])
    else HighBucket(t[1..])
  }

  /** The rows scoring at most the cut-off, in table order. */
  function LowBucket(t: seq<ScoredParticipant>): (l: seq<ScoredParticipant>)
    ensures |l| <= |t|
    ensures forall x :: x in l <==> x in t && x.complexityScore <= ComplexityCutoff
  {
    if |t| == 0 then []
    else if t[0].complexityScore <= ComplexityCutoff then [t[0]] + LowBucket(t[1..])
    else LowBucket(t[1..])
  }

  /** Every row lands in exactly one bucket. */
  lemma {:induction false} BucketsPartition(t: seq<ScoredParticipant>)
    ensures multiset(HighBucket(t)) + multiset(LowBucket(t)) == multiset(t)
    ensures |HighBucket(t)| + |LowBucket(t)| == |t|
  {
    if |t| > 0 {
      BucketsPartition(t[1..]);
      assert t == [t[0]] + t[1..];
    }
  }

  /** A non-empty column summing to zero has an entry at most zero. */
  lemma SomeEntryAtMostZero(cs: seq<real>) returns (i: nat)
    requires |cs| > 0 && Sum(cs) == 0.0
    ensures i < |cs| && cs[i] <= 0.0
  {
    if forall k :: 0 <= k < |cs| ==> cs[k] > 0.0 {
      SumPositive(cs);
      assert false;
    }
    i :| 0 <= i < |cs| && cs[i] <= 0.0;
  }

  /** Because complexity scores sum to zero, some record scores at most zero,
      so the Low bucket is never empty. */
  lemma LowBucketNonEmpty(rs: seq<Participant>, expenditureScale: real, hoursScale: real)
    requires Fitted(rs, expenditureScale, hoursScale)
    ensures |LowBucket(ScoreComplexity(rs, expenditureScale, hoursScale))| >= 1
  {
    var cs := ComplexityScores(rs, expenditureScale, hoursScale);
    var t := ScoreComplexity(rs, expenditureScale, hoursScale);
    ComplexityScoresSumToZero(rs, expenditureScale, hoursScale);
    var i := SomeEntryAtMostZero(cs);
    assert t[i].complexityScore <= ComplexityCutoff;
    assert t[i] in LowBucket(t);
  }

  /** When both columns have variance zero every score is zero and every
      record is Low. */
  lemma ZeroVarianceAllLow(rs: seq<Participant>, expenditureScale: real, hoursScale: real)
    requires Fitted(rs, expenditureScale, hoursScale)
    requires Variance(Expenditures(rs)) == 0.0 && Variance(Hours(rs)) == 0.0
    ensures forall i :: 0 <= i < |rs| ==> ComplexityScores(rs, expenditureScale, hoursScale)[i] == 0.0
    ensures HighBucket(ScoreComplexity(rs, expenditureScale, hoursScale)) == []
    ensures |LowBucket(ScoreComplexity(rs, expenditureScale, hoursScale))| == |rs|
  {
    StandardizeZeroVariance(Expenditures(rs), expenditureScale);
    StandardizeZeroVariance(Hours(rs), hoursScale);
    var t := ScoreComplexity(rs, expenditureScale, hoursScale);
    if HighBucket(t) != [] {
      assert HighBucket(t)[0] in HighBucket(t);
      assert false;
    }
    BucketsPartition(t);
  }

  /** Participants per coordinator in the High bucket. */
  const HighPerCoordinator: nat := 10
  /** Participants per coordinator in the Low bucket. */
  const LowPerCoordinator: nat := 15

  /** Whole coordinators for `count` participants at `perCoordinator` each,
      rounding down, but never fewer than one. */
  function Coordinators(count: nat, perCoordinator: nat): (c: nat)
    requires perCoordinator > 0
    ensures c >= 1
    ensures count < 2 * perCoordinator ==> c == 1
    ensures count >= perCoordinator ==> c * perCoordinator <= count < (c + 1) * perCoordinator
  {
    var q := count / perCoordinator;
    if q > 1 then q else 1
  }

  datatype ComplexityLevel = High | Low

  /** One output row per bucket. */
  datatype Recommendation = Recommendation(
    complexityLevel: ComplexityLevel,
    participantCount: nat,
    recommendedCoordinators: nat)

  /** The two-row recommendation table, High first then Low. */
  function RecommendCoordinatorAllocation(rs: seq<Participant>, expenditureScale: real, hoursScale: real)
    : (recs: seq<Recommendation>)
    requires Fitted(rs, expenditureScale, hoursScale)
    ensures |recs| == 2
    ensures recs[0].complexityLevel == High && recs[1].complexityLevel == Low
    ensures recs[0].participantCount == |HighBucket(ScoreComplexity(rs, expenditureScale, hoursScale))|
    ensures recs[1].participantCount == |LowBucket(ScoreComplexity(rs, expenditureScale, hoursScale))|
    ensures recs[0].participantCount + recs[1].participantCount == |rs|
    ensures recs[1].participantCount >= 1
    ensures recs[0].recommendedCoordinators == Coordinators(recs[0].participantCount, HighPerCoordinator)
    ensures recs[1].recommendedCoordinators == Coordinators(recs[1].participantCount, LowPerCoordinator)
    ensures recs[0].recommendedCoordinators >= 1 && recs[1].recommendedCoordinators >= 1
  {
    var t := ScoreComplexity(rs, expenditureScale, hoursScale);
    var high, low := |HighBucket(t)|, |LowBucket(t)|;
    BucketsPartition(t);
    LowBucketNonEmpty(rs, expenditureScale, hoursScale);
    [ Recommendation(High, high, Coordinators(high, HighPerCoordinator)),
      Recommendation(Low, low, Coordinators(low, LowPerCoordinator)) ]
  }

  /** Two participants with equal expenditure and equal service hours: both
      columns have variance zero, the scales are 1, and both land in Low. */
  lemma TiedPairAllLow(a: Participant, b: Participant)
    requires a.dailyExpenditure == b.dailyExpenditure && a.serviceHours == b.serviceHours
    ensures ScalerFitted([a, b], 1.0, 1.0)
    ensures RecommendCoordinatorAllocation([a, b], 1.0, 1.0)
            == [Recommendation(High, 0, 1), Recommendation(Low, 2, 1)]
  {
    ConstantHasZeroVariance(Expenditures([a, b]), a.dailyExpenditure);
    ConstantHasZeroVariance(Hours([a, b]), a.serviceHours);
    ZeroVarianceAllLow([a, b], 1.0, 1.0);
  }

  /** Why the recommendation table could not be built. */
  datatype TableError = ColumnLengthMismatch

  /** The table as the dashboard builds it: the level column holds one entry
      per participant while the count and coordinator columns hold two, and a
      table of unequal columns is refused. */
  function AllocationTableAsWritten(highCount: nat, lowCount: nat): (r: Result<seq<Recommendation>, TableError>)
    ensures r.Success? <==> highCount + lowCount == 2
    ensures r.Success? ==> |r.value| == 2
    ensures r.Success? ==> r.value[0].complexityLevel == (if highCount > 0 then High else Low)
  {
    var levels := seq(highCount, _ => High) + seq(lowCount, _ => Low);
    if |levels| != 2 then Failure(ColumnLengthMismatch)
    else
      Success([ Recommendation(levels[0], highCount, Coordinators(highCount, HighPerCoordinator)),
                Recommendation(levels[1], lowCount, Coordinators(lowCount, LowPerCoordinator)) ])
  }

  /** As written, the table is built only for exactly two participants. */
  lemma AsWrittenFailsUnlessTwoParticipants(rs: seq<Participant>, expenditureScale: real, hoursScale: real)
    requires Fitted(rs, expenditureScale, hoursScale)
    ensures var t := ScoreComplexity(rs, expenditureScale, hoursScale);
            AllocationTableAsWritten(|HighBucket(t)|, |LowBucket(t)|).Success? <==> |rs| == 2
  {
    BucketsPartition(ScoreComplexity(rs, expenditureScale, hoursScale));
  }

  /** And for two tied participants the first row, which carries the High
      count, is labelled Low; the corrected table labels it High. */
  lemma AsWrittenMislabelsTiedPair(a: Participant, b: Participant)
    requires a.dailyExpenditure == b.dailyExpenditure && a.serviceHours == b.serviceHours
    ensures ScalerFitted([a, b], 1.0, 1.0)
    ensures var t := ScoreComplexity([a, b], 1.0, 1.0);
            AllocationTableAsWritten(|HighBucket(t)|, |LowBucket(t)|)
            == Success([Recommendation(Low, 0, 1), Recommendation(Low, 2, 1)])
    ensures RecommendCoordinatorAllocation([a, b], 1.0, 1.0)[0].complexityLevel == High
  {
    TiedPairAllLow(a, b);
  }
}

=== FILE: dashboard.dfy ===
/** The dashboard's own logic around the engine: the required-column check
    applied to an uploaded table, and the summary written into the report. */
module Dashboard {
  import opened Participants
  import opened Stats
  import opened Wrappers
  import Risk
  import Allocation

  /** The columns an uploaded table must have. */
  const RequiredColumns: seq<string> := ["participant_id", "total_funding", "daily_expenditure", "service_hours"]

  /** Whether every name in `names` occurs among `columns`. */
  function AllPresent(names: seq<string>, columns: seq<string>): (ok: bool)
    ensures ok <==> forall k :: 0 <= k < |names| ==> names[k] in columns
  {
    if |names| == 0 then true else names[0] in columns && AllPresent(names[1..], columns)
  }

  /** The upload check: accepted exactly when all four required names are columns. */
  function HasRequiredColumns(columns: seq<string>): (ok: bool)
    ensures ok <==> ("participant_id" in columns && "total_funding" in columns
                     && "daily_expenditure" in columns && "service_hours" in columns)
  {
    assert RequiredColumns[0] == "participant_id" && RequiredColumns[1] == "total_funding";
    assert RequiredColumns[2] == "daily_expenditure" && RequiredColumns[3] == "service_hours";
    AllPresent(RequiredColumns, columns)
  }

  /** Extra columns, and any reordering, never turn an accepted table into a
      rejected one: acceptance depends only on which names are present. */
  lemma ExtraColumnsAccepted(columns: seq<string>, wider: seq<string>)
    requires forall c :: c in columns ==> c in wider
    ensures HasRequiredColumns(columns) ==> HasRequiredColumns(wider)
  {
  }

  /** The level column of a set of assessments. */
  function Levels(risks: seq<Risk.RiskAssessment>): (ls: seq<Risk.RiskLevel>)
    ensures |ls| == |risks|
    ensures forall i :: 0 <= i < |risks| ==> ls[i] == risks[i].riskLevel
  {
    seq(|risks|, i requires 0 <= i < |risks| => risks[i].riskLevel)
  }

  /** The High-risk rows among a set of assessments. */
  function CountHighRisk(risks: seq<Risk.RiskAssessment>): (k: nat)
    ensures k <= |risks|
    ensures k == 0 <==> forall i :: 0 <= i < |risks| ==> risks[i].riskLevel != Risk.High
    ensures k == |risks| <==> forall i :: 0 <= i < |risks| ==> risks[i].riskLevel == Risk.High
  {
    if |risks| == 0 then 0
    else (if risks[0].riskLevel == Risk.High then 1 else 0) + CountHighRisk(risks[1..])
  }

  /** The High count is the number of times High occurs in the level column. */
  lemma {:induction false} CountHighRiskIsMultiplicity(risks: seq<Risk.RiskAssessment>)
    ensures CountHighRisk(risks) == multiset(Levels(risks))[Risk.High]
  {
    if |risks| > 0 {
      assert Levels(risks) == [risks[0].riskLevel] + Levels(risks[1..]);
      CountHighRiskIsMultiplicity(risks[1..]);
    }
  }

  /** The High count of a concatenation is the sum of the two counts. */
  lemma CountHighRiskAppend(a: seq<Risk.RiskAssessment>, b: seq<Risk.RiskAssessment>)
    ensures CountHighRisk(a + b) == CountHighRisk(a) + CountHighRisk(b)
  {
    CountHighRiskIsMultiplicity(a + b);
    CountHighRiskIsMultiplicity(a);
    CountHighRiskIsMultiplicity(b);
    assert Levels(a + b) == Levels(a) + Levels(b);
  }

  /** For each record, whether its risk score exceeds the High cut-off. */
  function AboveHigh(rs: seq<Participant>, fundingThreshold: real, hoursThreshold: real): (flags: seq<bool>)
    requires forall i :: 0 <= i < |rs| ==> rs[i].totalFunding != 0.0
    requires fundingThreshold != 0.0 && hoursThreshold != 0.0
    ensures |flags| == |rs|
    ensures forall i :: 0 <= i < |rs| ==>
              (flags[i] <==> Risk.RiskScore(rs[i], fundingThreshold, hoursThreshold) > Risk.HighCutoff)
  {
    seq(|rs|, i requires 0 <= i < |rs| => Risk.RiskScore(rs[i], fundingThreshold, hoursThreshold) > Risk.HighCutoff)
  }

  /** The records whose risk score exceeds the High cut-off, counted directly
      from the score formula. */
  function CountScoresAboveHigh(rs: seq<Participant>, fundingThreshold: real, hoursThreshold: real): nat
    requires forall i :: 0 <= i < |rs| ==> rs[i].totalFunding != 0.0
    requires fundingThreshold != 0.0 && hoursThreshold != 0.0
  {
    if |rs| == 0 then 0
    else (if Risk.RiskScore(rs[0], fundingThreshold, hoursThreshold) > Risk.HighCutoff then 1 else 0)
         + CountScoresAboveHigh(rs[1..], fundingThreshold, hoursThreshold)
  }

  /** The direct count is the number of true flags in the "score above 0.7" column. */
  lemma {:induction false} CountScoresAboveHighIsMultiplicity(rs: seq<Participant>, fundingThreshold: real, hoursThreshold: real)
    requires forall i :: 0 <= i < |rs| ==> rs[i].totalFunding != 0.0
    requires fundingThreshold != 0.0 && hoursThreshold != 0.0
    ensures CountScoresAboveHigh(rs, fundingThreshold, hoursThreshold)
            == multiset(AboveHigh(rs, fundingThreshold, hoursThreshold))[true]
  {
    if |rs| > 0 {
      var flags := AboveHigh(rs, fundingThreshold, hoursThreshold);
      assert flags == [flags[0]] + AboveHigh(rs[1..], fundingThreshold, hoursThreshold);
      CountScoresAboveHighIsMultiplicity(rs[1..], fundingThreshold, hoursThreshold);
    }
  }

  /** Counting High levels in the assessments is counting scores above 0.7. */
  lemma {:induction false} HighRiskCountIsScoreCount(rs: seq<Participant>, fundingThreshold: real, hoursThreshold: real)
    requires forall i :: 0 <= i < |rs| ==> rs[i].totalFunding != 0.0
    requires fundingThreshold != 0.0 && hoursThreshold != 0.0
    ensures CountHighRisk(Risk.AssessServiceRisks(rs, fundingThreshold, hoursThreshold))
            == CountScoresAboveHigh(rs, fundingThreshold, hoursThreshold)
  {
    if |rs| > 0 {
      var out := Risk.AssessServiceRisks(rs, fundingThreshold, hoursThreshold);
      assert out[1..] == Risk.AssessServiceRisks(rs[1..], fundingThreshold, hoursThreshold);
      HighRiskCountIsScoreCount(rs[1..], fundingThreshold, hoursThreshold);
    }
  }

  /** Mean service hours; no value (pandas' NaN) for an empty table. */
  function AverageServiceHours(rs: seq<Participant>): (a: Option<real>)
    ensures a.None? <==> |rs| == 0
    ensures a.Some? ==> a.value * (|rs| as real) == Sum(Hours(rs))
  {
    if |rs| == 0 then None else Some(Mean(Hours(rs)))
  }

  /** The mean lies between the least and the greatest service hours. */
  lemma AverageWithinRange(rs: seq<Participant>, lo: real, hi: real)
    requires |rs| > 0
    requires forall i :: 0 <= i < |rs| ==> lo <= rs[i].serviceHours <= hi
    ensures lo <= AverageServiceHours(rs).value <= hi
  {
    var n := |rs| as real;
    var a := AverageServiceHours(rs).value;
    SumBounds(Hours(rs), lo, hi);
    assert a * n == Sum(Hours(rs));
    if a < lo {
      MultiplyBelow(a, lo, n);
    }
    if a > hi {
      MultiplyBelow(hi, a, n);
    }
  }

  /** The report's summary row (its date stamp is not modelled). */
  datatype Report = Report(
    totalParticipants: nat,
    totalFunding: real,
    averageServiceHours: Option<real>,
    highRiskParticipants: nat,
    recommendations: seq<Allocation.Recommendation>)

  /** The summary built from the records, the risk thresholds, and the scales
      the allocation step standardizes with. */
  function GenerateReport(rs: seq<Participant>, fundingThreshold: real, hoursThreshold: real,
                          expenditureScale: real, hoursScale: real): (rep: Report)
    requires forall i :: 0 <= i < |rs| ==> rs[i].totalFunding != 0.0
    requires fundingThreshold != 0.0 && hoursThreshold != 0.0
    requires Allocation.Fitted(rs, expenditureScale, hoursScale)
    ensures rep.totalParticipants == |rs|
    ensures rep.totalFunding == Sum(Fundings(rs))
    ensures rep.averageServiceHours == AverageServiceHours(rs) && rep.averageServiceHours.Some?
    ensures rep.highRiskParticipants == CountScoresAboveHigh(rs, fundingThreshold, hoursThreshold)
    ensures rep.highRiskParticipants <= rep.totalParticipants
    ensures rep.recommendations == Allocation.RecommendCoordinatorAllocation(rs, expenditureScale, hoursScale)
  {
    var risks := Risk.AssessServiceRisks(rs, fundingThreshold, hoursThreshold);
    var average := AverageServiceHours(rs);
    HighRiskCountIsScoreCount(rs, fundingThreshold, hoursThreshold);
    Report(|rs|, Sum(Fundings(rs)), average, CountHighRisk(risks),
           Allocation.RecommendCoordinatorAllocation(rs, expenditureScale, hoursScale))
  }

  /** Total funding adds up across two halves of the table. */
  lemma TotalFundingAdditive(a: seq<Participant>, b: seq<Participant>)
    ensures Sum(Fundings(a + b)) == Sum(Fundings(a)) + Sum(Fundings(b))
  {
    assert Fundings(a + b) == Fundings(a) + Fundings(b);
    SumAppend(Fundings(a), Fundings(b));
  }

  /** Non-negative funding per record gives a non-negative total. */
  lemma TotalFundingNonnegative(rs: seq<Participant>)
    requires forall i :: 0 <= i < |rs| ==> rs[i].totalFunding >= 0.0
    ensures Sum(Fundings(rs)) >= 0.0
  {
    SumNonnegative(Fundings(rs));
  }
}

=== FILE: depletion.dfy ===
/** The depletion estimator: for each participant, the number of days the
    remaining funding lasts at the current daily burn, capped at one year. */
module Depletion {
  import opened Participants
  import Stats

  /** One output row: a participant and their funding runway in days. */
  datatype DepletionEstimate = DepletionEstimate(participantId: string, daysUntilDepletion: real)

  /** The runway of one record. Funding divided by a positive daily burn, never
      more than a year; with no positive burn the runway is the full year. */
  function DaysUntilDepletion(r: Participant): (d: real)
    ensures d <= DaysPerYear
    ensures r.dailyExpenditure <= 0.0 ==> d == DaysPerYear
    ensures r.dailyExpenditure > 0.0 ==>
              (d == DaysPerYear <==> r.totalFunding >= DaysPerYear * r.dailyExpenditure)
    ensures r.dailyExpenditure > 0.0 && d < DaysPerYear ==> d * r.dailyExpenditure == r.totalFunding
    ensures r.totalFunding >= 0.0 ==> d >= 0.0
  {
    var days := if r.dailyExpenditure > 0.0 then r.totalFunding / r.dailyExpenditure else DaysPerYear;
    if days < DaysPerYear then days else DaysPerYear
  }

  /** One estimate per record, in input order. */
  function CalculateFundingDepletion(rs: seq<Participant>): (out: seq<DepletionEstimate>)
    ensures |out| == |rs|
    ensures forall i :: 0 <= i < |rs| ==>
              out[i].participantId == rs[i].participantId
              && out[i].daysUntilDepletion == DaysUntilDepletion(rs[i])
    ensures forall i :: 0 <= i < |rs| ==> out[i].daysUntilDepletion <= DaysPerYear
    ensures forall i :: 0 <= i < |rs| && rs[i].dailyExpenditure <= 0.0 ==>
              out[i].daysUntilDepletion == DaysPerYear
  {
    seq(|rs|, i requires 0 <= i < |rs| =>
      DepletionEstimate(rs[i].participantId, DaysUntilDepletion(rs[i])))
  }

  /** More funding at the same daily burn never shortens the runway. */
  lemma RunwayGrowsWithFunding(a: Participant, b: Participant)
    requires a.dailyExpenditure == b.dailyExpenditure
    requires a.totalFunding <= b.totalFunding
    ensures DaysUntilDepletion(a) <= DaysUntilDepletion(b)
  {
    if a.dailyExpenditure > 0.0 {
      Stats.DivideMonotone(a.totalFunding, b.totalFunding, a.dailyExpenditure);
    }
  }

  /** Funding 1000 at 10 a day lasts 100 days. */
  lemma HundredDayRunway()
    ensures CalculateFundingDepletion([Participant("1", 1000.0, 10.0, 5.0)])
            == [DepletionEstimate("1", 100.0)]
  {
    var out := CalculateFundingDepletion([Participant("1", 1000.0, 10.0, 5.0)]);
    assert out[0].daysUntilDepletion == 100.0;
  }
}

=== FILE: forecast.dfy ===
/** The forecast generator: the portfolio's total daily spend projected over a
    horizon with a linear growth trend from 0 to 20% plus a per-day noise term.
    The noise is supplied by the caller; calendar dates become day offsets. */
module Forecast {
  import opened Participants
  import opened Stats

  /** Total growth of the trend over the whole horizon. */
  const TrendGrowth: real := 0.2

  /** Entry `i` of an evenly spaced ramp of `n` points from 0 to the growth
      (numpy's `linspace` with both endpoints); a single point is 0. */
  function Trend(n: nat, i: nat): (t: real)
    requires i < n
    ensures 0.0 <= t <= TrendGrowth
    ensures i == 0 ==> t == 0.0
    ensures n >= 2 && i == n - 1 ==> t == TrendGrowth
  {
    if n == 1 then 0.0
    else
      var step := TrendGrowth / ((n - 1) as real);
      TrendStepBounds(n, i);
      step * (i as real)
  }

  lemma TrendStepBounds(n: nat, i: nat)
    requires 2 <= n && i < n
    ensures 0.0 <= (TrendGrowth / ((n - 1) as real)) * (i as real) <= TrendGrowth
    ensures i == n - 1 ==> (TrendGrowth / ((n - 1) as real)) * (i as real) == TrendGrowth
  {
    var step := TrendGrowth / ((n - 1) as real);
    assert step * ((n - 1) as real) == TrendGrowth;
    MultiplyMonotone(step, i as real, (n - 1) as real);
    ProductNonnegative(step, i as real);
  }

  /** Neighbouring trend values differ by the same step. */
  lemma TrendEvenlySpaced(n: nat, i: nat)
    requires n >= 2 && i + 1 < n
    ensures Trend(n, i + 1) - Trend(n, i) == TrendGrowth / ((n - 1) as real)
  {
  }

  /** The trend never falls. */
  lemma TrendMonotone(n: nat, i: nat, j: nat)
    requires i <= j < n
    ensures Trend(n, i) <= Trend(n, j)
  {
    if n >= 2 {
      var step := TrendGrowth / ((n - 1) as real);
      MultiplyMonotone(step, i as real, j as real);
    }
  }

  /** One projected day: its offset from today and the predicted spend. */
  datatype ForecastPoint = ForecastPoint(dayOffset: nat, predictedExpenditure: real)

  /** The forecast over `forecastDays` days from the records' total daily
      expenditure, with `noise[i]` the noise drawn for day `i`. */
  function GenerateForecasts(rs: seq<Participant>, forecastDays: nat, noise: seq<real>): (pts: seq<ForecastPoint>)
    requires |noise| == forecastDays
    ensures |pts| == forecastDays
    ensures forall i :: 0 <= i < forecastDays ==>
              && pts[i].dayOffset == i
              && pts[i].predictedExpenditure
                 == Sum(Expenditures(rs)) * (1.0 + Trend(forecastDays, i) + noise[i])
  {
    var dailyTotal := Sum(Expenditures(rs));
    seq(forecastDays, i requires 0 <= i < forecastDays =>
      ForecastPoint(i, dailyTotal * (1.0 + Trend(forecastDays, i) + noise[i])))
  }

  /** The first day is today's total spend plus only its noise; with two or
      more days, the last carries the full 20% growth. */
  lemma ForecastEndpoints(rs: seq<Participant>, forecastDays: nat, noise: seq<real>)
    requires |noise| == forecastDays && forecastDays >= 1
    ensures GenerateForecasts(rs, forecastDays, noise)[0].predictedExpenditure
            == Sum(Expenditures(rs)) * (1.0 + noise[0])
    ensures forecastDays >= 2 ==>
              GenerateForecasts(rs, forecastDays, noise)[forecastDays - 1].predictedExpenditure
              == Sum(Expenditures(rs)) * (1.0 + TrendGrowth + noise[forecastDays - 1])
  {
  }

  /** Without noise and with non-negative total spend the forecast never falls. */
  lemma NoiselessForecastNonDecreasing(rs: seq<Participant>, forecastDays: nat, noise: seq<real>, i: nat, j: nat)
    requires |noise| == forecastDays
    requires forall k :: 0 <= k < forecastDays ==> noise[k] == 0.0
    requires Sum(Expenditures(rs)) >= 0.0
    requires i <= j < forecastDays
    ensures GenerateForecasts(rs, forecastDays, noise)[i].predictedExpenditure
            <= GenerateForecasts(rs, forecastDays, noise)[j].predictedExpenditure
  {
    TrendMonotone(forecastDays, i, j);
    MultiplyMonotone(Sum(Expenditures(rs)), 1.0 + Trend(forecastDays, i), 1.0 + Trend(forecastDays, j));
  }

  /** Noise bounded by `b` keeps each day within `b` times the total spend of
      the noiseless trend value. */
  lemma ForecastWithinNoiseBand(rs: seq<Participant>, forecastDays: nat, noise: seq<real>, b: real, i: nat)
    requires |noise| == forecastDays
    requires forall k :: 0 <= k < forecastDays ==> -b <= noise[k] <= b
    requires Sum(Expenditures(rs)) >= 0.0
    requires i < forecastDays
    ensures var total, t := Sum(Expenditures(rs)), Trend(forecastDays, i);
            total * (1.0 + t - b) <= GenerateForecasts(rs, forecastDays, noise)[i].predictedExpenditure
            <= total * (1.0 + t + b)
  {
    var total, t := Sum(Expenditures(rs)), Trend(forecastDays, i);
    MultiplyMonotone(total, 1.0 + t - b, 1.0 + t + noise[i]);
    MultiplyMonotone(total, 1.0 + t + noise[i], 1.0 + t + b);
  }
}

=== FILE: participants.dfy ===
/** The input table: one record per participant, and its numeric columns. */
module Participants {

  /** Days in the one-year horizon used by depletion capping and risk projection. */
  const DaysPerYear: real := 365.0

  /** One row of the uploaded table. */
  datatype Participant = Participant(
    participantId: string,
    totalFunding: real,
    dailyExpenditure: real,
    serviceHours: real)

  /** The `total_funding` column. */
  function Fundings(rs: seq<Participant>): (c: seq<real>)
    ensures |c| == |rs|
    ensures forall i :: 0 <= i < |rs| ==> c[i] == rs[i].totalFunding
  {
    seq(|rs|, i requires 0 <= i < |rs| => rs[i].totalFunding)
  }

  /** The `daily_expenditure` column. */
  function Expenditures(rs: seq<Participant>): (c: seq<real>)
    ensures |c| == |rs|
    ensures forall i :: 0 <= i < |rs| ==> c[i] == rs[i].dailyExpenditure
  {
    seq(|rs|, i requires 0 <= i < |rs| => rs[i].dailyExpenditure)
  }

  /** The `service_hours` column. */
  function Hours(rs: seq<Participant>): (c: seq<real>)
    ensures |c| == |rs|
    ensures forall i :: 0 <= i < |rs| ==> c[i] == rs[i].serviceHours
  {
    seq(|rs|, i requires 0 <= i < |rs| => rs[i].serviceHours)
  }
}

=== FILE: risk.dfy ===
/** The risk assessor: a composite score per participant from the share of
    funding left after a year of spending and the service-hours shortfall,
    each measured against a caller-supplied threshold, then classified. */
module Risk {
  import opened Participants
  import Stats
  import Depletion

  datatype RiskLevel = Low | Medium | High

  /** Scores strictly above this are High. */
  const HighCutoff: real := 0.7
  /** Scores strictly above this (and not High) are Medium. */
  const MediumCutoff: real := 0.3

  /** One output row: a participant, their score and its classification. */
  datatype RiskAssessment = RiskAssessment(participantId: string, riskScore: real, riskLevel: RiskLevel)

  /** An order on levels, for stating monotonicity. */
  function Severity(level: RiskLevel): nat
  {
    match level
    case Low => 0
    case Medium => 1
    case High => 2
  }

  /** Exactly one level per score; the cut-offs themselves fall to the lower level. */
  function ClassifyRisk(score: real): (level: RiskLevel)
    ensures level == High <==> score > HighCutoff
    ensures level == Medium <==> MediumCutoff < score <= HighCutoff
    ensures level == Low <==> score <= MediumCutoff
  {
    if score > HighCutoff then High else if score > MediumCutoff then Medium else Low
  }

  /** A higher score never gets a lower level. */
  lemma ClassifyMonotone(s: real, t: real)
    requires s <= t
    ensures Severity(ClassifyRisk(s)) <= Severity(ClassifyRisk(t))
  {
  }

  /** Funding left after spending at the current daily rate for a year. With
      positive spending it is non-negative exactly when the depletion runway
      reaches the one-year cap, and a positive remainder is a runway beyond it. */
  function FundingRemaining(r: Participant): (rem: real)
    ensures r.dailyExpenditure > 0.0 ==>
              (rem >= 0.0 <==> Depletion.DaysUntilDepletion(r) == DaysPerYear)
    ensures rem < r.totalFunding <==> r.dailyExpenditure > 0.0
  {
    r.totalFunding - r.dailyExpenditure * DaysPerYear
  }

  /** The projected one-year remainder as a percentage of total funding. */
  function FundingRiskPct(r: Participant): (p: real)
    requires r.totalFunding != 0.0
    ensures p * r.totalFunding == FundingRemaining(r) * 100.0
  {
    FundingRemaining(r) / r.totalFunding * 100.0
  }

  /** The composite score: the mean of the funding shortfall and the
      service-hours shortfall, each relative to its threshold. Every divisor
      is unguarded in the dashboard, so none may be zero. */
  function RiskScore(r: Participant, fundingThreshold: real, hoursThreshold: real): (score: real)
    requires r.totalFunding != 0.0
    requires fundingThreshold != 0.0 && hoursThreshold != 0.0
    ensures score * 2.0 * fundingThreshold * hoursThreshold
            == (fundingThreshold - FundingRiskPct(r)) * hoursThreshold
               + (hoursThreshold - r.serviceHours) * fundingThreshold
  {
    var a := (fundingThreshold - FundingRiskPct(r)) / fundingThreshold;
    var b := (hoursThreshold - r.serviceHours) / hoursThreshold;
    ClearDenominators(a, b, fundingThreshold, hoursThreshold,
                      fundingThreshold - FundingRiskPct(r), hoursThreshold - r.serviceHours);
    (a + b) / 2.0
  }

  /** The mean of two quotients, with both denominators multiplied out. */
  lemma ClearDenominators(a: real, b: real, c: real, d: real, p: real, q: real)
    requires c != 0.0 && d != 0.0
    requires a * c == p && b * d == q
    ensures ((a + b) / 2.0) * 2.0 * c * d == p * d + q * c
  {
    assert ((a + b) / 2.0) * 2.0 == a + b;
    assert (a + b) * c * d == (a * c) * d + (b * d) * c;
  }

  /** One assessment per record, in input order. */
  function AssessServiceRisks(rs: seq<Participant>, fundingThreshold: real, hoursThreshold: real)
    : (out: seq<RiskAssessment>)
    requires forall i :: 0 <= i < |rs| ==> rs[i].totalFunding != 0.0
    requires fundingThreshold != 0.0 && hoursThreshold != 0.0
    ensures |out| == |rs|
    ensures forall i :: 0 <= i < |rs| ==>
              && out[i].participantId == rs[i].participantId
              && out[i].riskScore == RiskScore(rs[i], fundingThreshold, hoursThreshold)
              && out[i].riskLevel == ClassifyRisk(out[i].riskScore)
  {
    seq(|rs|, i requires 0 <= i < |rs| =>
      var score := RiskScore(rs[i], fundingThreshold, hoursThreshold);
      RiskAssessment(rs[i].participantId, score, ClassifyRisk(score)))
  }

  lemma DivideBy(a: real, c: real)
    requires c != 0.0
    ensures (c - a) / c == 1.0 - a / c
  {
    var q := (c - a) / c;
    var p := a / c;
    assert q * c == c - a;
    assert p * c == a;
    assert (q - (1.0 - p)) * c == q * c - c + p * c;
    Stats.ZeroProduct(q - (1.0 - p), c);
  }

  /** The score is one minus the mean attainment of the two thresholds. */
  lemma RiskScoreAsAttainment(r: Participant, fundingThreshold: real, hoursThreshold: real)
    requires r.totalFunding != 0.0
    requires fundingThreshold != 0.0 && hoursThreshold != 0.0
    ensures RiskScore(r, fundingThreshold, hoursThreshold)
            == 1.0 - (FundingRiskPct(r) / fundingThreshold + r.serviceHours / hoursThreshold) / 2.0
  {
    DivideBy(FundingRiskPct(r), fundingThreshold);
    DivideBy(r.serviceHours, hoursThreshold);
  }

  /** A participant exactly on both thresholds scores zero and is Low. */
  lemma OnThresholdsIsLow(r: Participant, fundingThreshold: real, hoursThreshold: real)
    requires r.totalFunding != 0.0
    requires fundingThreshold != 0.0 && hoursThreshold != 0.0
    requires FundingRiskPct(r) == fundingThreshold && r.serviceHours == hoursThreshold
    ensures RiskScore(r, fundingThreshold, hoursThreshold) == 0.0
    ensures ClassifyRisk(RiskScore(r, fundingThreshold, hoursThreshold)) == Low
  {
  }

  /** With positive funding and funding threshold, spending more per day
      (all else equal) never lowers the score. */
  lemma RiskRisesWithExpenditure(a: Participant, b: Participant, fundingThreshold: real, hoursThreshold: real)
    requires a.totalFunding == b.totalFunding && a.totalFunding > 0.0
    requires a.serviceHours == b.serviceHours
    requires a.dailyExpenditure <= b.dailyExpenditure
    requires fundingThreshold > 0.0 && hoursThreshold != 0.0
    ensures RiskScore(a, fundingThreshold, hoursThreshold) <= RiskScore(b, fundingThreshold, hoursThreshold)
  {
    var pa, pb := FundingRiskPct(a), FundingRiskPct(b);
    assert (pa - pb) * a.totalFunding == (FundingRemaining(a) - FundingRemaining(b)) * 100.0;
    Stats.PositiveFactor(pa - pb, a.totalFunding);
    Stats.DivideMonotone(fundingThreshold - pa, fundingThreshold - pb, fundingThreshold);
  }

  /** With a positive hours threshold, more service hours (all else equal)
      never raise the score. */
  lemma RiskFallsWithHours(a: Participant, b: Participant, fundingThreshold: real, hoursThreshold: real)
    requires a.totalFunding == b.totalFunding && a.totalFunding != 0.0
    requires a.dailyExpenditure == b.dailyExpenditure
    requires a.serviceHours <= b.serviceHours
    requires fundingThreshold != 0.0 && hoursThreshold > 0.0
    ensures RiskScore(b, fundingThreshold, hoursThreshold) <= RiskScore(a, fundingThreshold, hoursThreshold)
  {
    Stats.DivideMonotone(hoursThreshold - b.serviceHours, hoursThreshold - a.serviceHours, hoursThreshold);
  }

  /** Funding 1000 at 10 a day with 5 service hours, thresholds 20 and 15:
      a year's spending leaves -265% of the funding, and the score is 179/24, High. */
  lemma OverspendingParticipantIsHigh()
    ensures var r := Participant("1", 1000.0, 10.0, 5.0);
            && FundingRiskPct(r) == -265.0
            && AssessServiceRisks([r], 20.0, 15.0) == [RiskAssessment("1", 179.0 / 24.0, High)]
  {
    var r := Participant("1", 1000.0, 10.0, 5.0);
    assert FundingRiskPct(r) == -265.0;
    assert RiskScore(r, 20.0, 15.0) == 179.0 / 24.0;
  }
}

=== FILE: stats.dfy ===
/** Column statistics on exact reals: the sum, mean and population variance
    that pandas and scikit-learn compute over a numeric column. */
module Stats {

  /** The sum of a column (pandas `Series.sum`); 0 for an empty column. */
  function Sum(xs: seq<real>): real
  {
    if |xs| == 0 then 0.0 else xs[0] + Sum(xs[1..])
  }

  lemma {:induction false} SumAppend(a: seq<real>, b: seq<real>)
    ensures Sum(a + b) == Sum(a) + Sum(b)
  {
    if |a| == 0 {
      assert a + b == b;
    } else {
      assert (a + b)[1..] == a[1..] + b;
      SumAppend(a[1..], b);
    }
  }

  /** A column whose every entry lies in [lo, hi] sums to between n*lo and n*hi. */
  lemma {:induction false} SumBounds(xs: seq<real>, lo: real, hi: real)
    requires forall i :: 0 <= i < |xs| ==> lo <= xs[i] <= hi
    ensures (|xs| as real) * lo <= Sum(xs) <= (|xs| as real) * hi
  {
    if |xs| > 0 {
      SumBounds(xs[1..], lo, hi);
    }
  }

  lemma {:induction false} SumNonnegative(xs: seq<real>)
    requires forall i :: 0 <= i < |xs| ==> xs[i] >= 0.0
    ensures Sum(xs) >= 0.0
  {
    if |xs| > 0 {
      SumNonnegative(xs[1..]);
    }
  }

  /** A non-empty column of strictly positive entries has a positive sum. */
  lemma {:induction false} SumPositive(xs: seq<real>)
    requires |xs| > 0
    requires forall i :: 0 <= i < |xs| ==> xs[i] > 0.0
    ensures Sum(xs) > 0.0
  {
    if |xs| > 1 {
      SumPositive(xs[1..]);
    }
  }

  /** Non-negative entries summing to zero are all zero. */
  lemma {:induction false} SumZeroOfNonnegative(xs: seq<real>)
    requires forall i :: 0 <= i < |xs| ==> xs[i] >= 0.0
    requires Sum(xs) == 0.0
    ensures forall i :: 0 <= i < |xs| ==> xs[i] == 0.0
  {
    if |xs| > 0 {
      SumNonnegative(xs[1..]);
      SumZeroOfNonnegative(xs[1..]);
      forall i | 1 <= i < |xs|
        ensures xs[i] == 0.0
      {
        assert xs[i] == xs[1..][i - 1];
      }
    }
  }

  /** A constant column sums to its length times the constant. */
  lemma {:induction false} SumConstant(xs: seq<real>, c: real)
    requires forall i :: 0 <= i < |xs| ==> xs[i] == c
    ensures Sum(xs) == (|xs| as real) * c
  {
    if |xs| > 0 {
      SumConstant(xs[1..], c);
    }
  }

  /** The arithmetic mean (pandas `Series.mean`, scikit-learn's `mean_`). */
  function Mean(xs: seq<real>): (m: real)
    requires |xs| > 0
    ensures m * (|xs| as real) == Sum(xs)
  {
    Sum(xs) / (|xs| as real)
  }

  /** Every entry shifted by `m` and divided by `s`: the standardizing map. */
  function Deviations(xs: seq<real>, m: real, s: real): (zs: seq<real>)
    requires s != 0.0
    ensures |zs| == |xs|
    ensures forall i :: 0 <= i < |xs| ==> zs[i] * s == xs[i] - m
  {
    if |xs| == 0 then [] else [(xs[0] - m) / s] + Deviations(xs[1..], m, s)
  }

  lemma {:induction false} SumDeviations(xs: seq<real>, m: real, s: real)
    requires s != 0.0
    ensures Sum(Deviations(xs, m, s)) * s == Sum(xs) - (|xs| as real) * m
  {
    if |xs| > 0 {
      var zs := Deviations(xs, m, s);
      assert zs[1..] == Deviations(xs[1..], m, s);
      SumDeviations(xs[1..], m, s);
      calc {
        Sum(zs) * s;
        zs[0] * s + Sum(zs[1..]) * s;
        (xs[0] - m) + Sum(xs[1..]) - ((|xs| - 1) as real) * m;
      }
    }
  }

  /** A product is zero only if a factor is. */
  lemma ZeroProduct(a: real, b: real)
    requires a * b == 0.0
    requires b != 0.0
    ensures a == 0.0
  {
    assert a == (a * b) / b;
  }

  lemma ProductNonnegative(a: real, b: real)
    requires (a >= 0.0 && b >= 0.0) || (a <= 0.0 && b <= 0.0)
    ensures a * b >= 0.0
  {
    if a <= 0.0 && b <= 0.0 {
      assert a * b == (-a) * (-b);
    }
  }

  /** Multiplying by a positive factor keeps the sign. */
  lemma PositiveFactor(a: real, b: real)
    requires b > 0.0
    requires a * b >= 0.0
    ensures a >= 0.0
  {
  }

  /** Division by a positive number preserves order. */
  lemma DivideMonotone(x: real, y: real, c: real)
    requires c > 0.0
    requires x <= y
    ensures x / c <= y / c
  {
    assert (y / c - x / c) * c == y - x;
    PositiveFactor(y / c - x / c, c);
  }

  /** Multiplying by a non-negative factor preserves order. */
  lemma MultiplyMonotone(c: real, a: real, b: real)
    requires c >= 0.0 && a <= b
    ensures c * a <= c * b
  {
    ProductNonnegative(c, b - a);
  }

  /** Multiplying by a positive factor preserves strict order. */
  lemma MultiplyBelow(a: real, b: real, n: real)
    requires a < b && n > 0.0
    ensures a * n < b * n
  {
    assert (b - a) * n > 0.0;
  }

  /** A square is non-negative, and zero only at zero. */
  lemma SquareFacts(x: real)
    ensures x * x >= 0.0
    ensures x * x == 0.0 ==> x == 0.0
  {
    ProductNonnegative(x, x);
    if x * x == 0.0 && x != 0.0 {
      ZeroProduct(x, x);
    }
  }

  /** The squared distance of every entry from `m`. */
  function SquaredDeviations(xs: seq<real>, m: real): (qs: seq<real>)
    ensures |qs| == |xs|
  {
    if |xs| == 0 then [] else [(xs[0] - m) * (xs[0] - m)] + SquaredDeviations(xs[1..], m)
  }

  /** The entry at `i` is the square of the `i`-th deviation. */
  lemma {:induction false} SquaredDeviationAt(xs: seq<real>, m: real, i: nat)
    requires i < |xs|
    ensures SquaredDeviations(xs, m)[i] == (xs[i] - m) * (xs[i] - m)
  {
    if i > 0 {
      SquaredDeviationAt(xs[1..], m, i - 1);
    }
  }

  lemma SquaredDeviationsNonnegative(xs: seq<real>, m: real)
    ensures forall i :: 0 <= i < |xs| ==> SquaredDeviations(xs, m)[i] >= 0.0
  {
    forall i | 0 <= i < |xs|
      ensures SquaredDeviations(xs, m)[i] >= 0.0
    {
      SquaredDeviationAt(xs, m, i);
      SquareFacts(xs[i] - m);
    }
  }

  /** The population variance (degrees of freedom 0), as StandardScaler uses. */
  function Variance(xs: seq<real>): (v: real)
    requires |xs| > 0
    ensures v >= 0.0
  {
    SquaredDeviationsNonnegative(xs, Mean(xs));
    SumNonnegative(SquaredDeviations(xs, Mean(xs)));
    Sum(SquaredDeviations(xs, Mean(xs))) / (|xs| as real)
  }

  /** A column of variance zero is constant: every entry equals the mean. */
  lemma ZeroVarianceIsConstant(xs: seq<real>)
    requires |xs| > 0
    requires Variance(xs) == 0.0
    ensures forall i :: 0 <= i < |xs| ==> xs[i] == Mean(xs)
  {
    var m := Mean(xs);
    var qs := SquaredDeviations(xs, m);
    assert Sum(qs) == 0.0;
    SquaredDeviationsNonnegative(xs, m);
    SumZeroOfNonnegative(qs);
    forall i | 0 <= i < |xs|
      ensures xs[i] == m
    {
      SquaredDeviationAt(xs, m, i);
      assert (xs[i] - m) * (xs[i] - m) == 0.0;
      SquareFacts(xs[i] - m);
    }
  }

  /** Conversely, a constant column has that constant as mean and variance zero. */
  lemma ConstantHasZeroVariance(xs: seq<real>, c: real)
    requires |xs| > 0
    requires forall i :: 0 <= i < |xs| ==> xs[i] == c
    ensures Mean(xs) == c
    ensures Variance(xs) == 0.0
  {
    SumConstant(xs, c);
    var n := |xs| as real;
    assert (Mean(xs) - c) * n == Mean(xs) * n - n * c;
    ZeroProduct(Mean(xs) - c, n);
    var qs := SquaredDeviations(xs, Mean(xs));
    forall i | 0 <= i < |xs|
      ensures qs[i] == 0.0
    {
      SquaredDeviationAt(xs, Mean(xs), i);
      var d := xs[i] - Mean(xs);
      assert d == 0.0;
      assert d * d == 0.0;
    }
    SumConstant(qs, 0.0);
  }
}

=== FILE: wrappers.dfy ===
/** Failure-carrying result types used where the dashboard yields "no value"
    (pandas NaN) or raises instead of returning a table. */
module Wrappers {

  /** A value that may be absent. */
  datatype Option<+T> = None | Some(value: T)

  /** Either a computed value or the reason it could not be computed. */
  datatype Result<+T, +E> = Success(value: T) | Failure(error: E)
}
